=== FILE: README.md ===
# Ripples scene editor: interaction core in Dafny

This project models the interaction core of the Ripples scene editor. The
editor is a React canvas of positioned text objects that can be hovered,
selected, dragged, resized from eight handles and created by double-click.
The viewport pans with the mouse wheel, and a toolbar switches between a
select mode and a text mode.

The model has five modules:

- `Interfaces` holds the shared value types of `src/common/interfaces.ts`
  (`Rect`, `Screen`) and the enums the components import
  (`Mode`, `ObjectType`). It adds `Option` (a TypeScript `T | null`),
  `Result` (a handler that read a missing object), and the transform between
  screen space and scene space.
- `Decimal` holds the decimal text of a counter, as `` `${n}` `` writes it,
  and its inverse. These make the `text-N` keys of created objects distinct.
- `Selection` models the resize outline of `src/components/selection.tsx`.
  Its gesture state is either idle or resizing from one of eight handles.
  `ResizedRect` is the pure function from (handle, initial rect, current
  rect, cursor displacement) to the rect emitted.
- `RippleMap` models the state of `src/components/rippleMap.tsx`, with the
  object shapes of `src/common/interfaces.ts` (`ObjectData`, `RippleObject`).
  Each `handle…` method becomes one pure step from the old state to the new.
- `Editor` wires the two components together. A pointer event reaches the
  handlers in the order the page runs them. The map's click and double-click
  handlers run in the capture phase, so they go before the object's own, and
  before a toolbar button's. Mouse-move and mouse-up bubble from the outline
  to the map; the outline's resize is stored only after an `await`, once the
  map's own update is applied (assumed; see "## Left out"). The outline
  exists only while an object is selected. `Editor` also proves that
  reachable states stay consistent: every id the state holds names an object,
  the objects are exactly the keys issued so far, and no deliverable event
  fails.

Coordinates are mathematical integers. Every handler is one atomic update.

## Model

| member | source | states |
|---|---|---|
| Interfaces.ScreenToScene | src/components/rippleMap.tsx:125-128 | the scene point under the pointer is the pointer position less the viewport offset; drawing it again puts it back under the pointer |
| Interfaces.SceneScreenRoundTrip | src/components/selection.tsx:56 | the drawing translation (add the offset) and the pointer conversion are inverse in both directions |
| Interfaces.DisplacementIgnoresOffset | src/components/rippleMap.tsx:125-136 | a cursor displacement is the same in scene space and in screen space for a fixed viewport |
| Decimal.Show | src/components/rippleMap.tsx:254 | the text of the counter is a non-empty digit string whose first digit is 0 only for zero |
| Decimal.ParseShow | src/components/rippleMap.tsx:254 | reading the digits back gives the counter, so the text identifies its number |
| Decimal.ShowInjective | src/components/rippleMap.tsx:254 | two counters have the same text exactly when they are equal |
| RippleMap.TextKey | src/components/rippleMap.tsx:254 | a created object's key is `text-` followed by the counter's digits |
| RippleMap.TextKeyRoundTrip | src/components/rippleMap.tsx:254 | the counter a key was made from can be recovered from the key |
| RippleMap.TextKeyInjective | src/components/rippleMap.tsx:254 | distinct counters give distinct keys and equal counters give equal keys |
| RippleMap.NextKeyFresh | src/components/rippleMap.tsx:250-254 | the key of the current counter is none of the keys issued before it |
| RippleMap.TextKeysStep | src/components/rippleMap.tsx:250-254 | advancing the counter issues exactly one more key |
| RippleMap.TextKeysCount | src/components/rippleMap.tsx:250-254 | after n creations exactly n distinct keys have been issued |
| RippleMap.ChangeMode | src/components/rippleMap.tsx:106-114 | picking the current mode is a no-op; another mode is set and the selection cleared; nothing else changes |
| RippleMap.ChangeModeIdempotent | src/components/rippleMap.tsx:106-114 | choosing a mode twice equals choosing it once |
| RippleMap.MouseDownObject | src/components/rippleMap.tsx:145-165 | in select mode a press captures the object, its position, and the cursor in scene space, and fails for an unknown id; text mode changes nothing |
| RippleMap.MouseMoveMap | src/components/rippleMap.tsx:116-143 | during a drag-move the object sits at its captured position plus the cursor displacement; its size, kind, data, all other objects and the rest of the state are kept; otherwise nothing changes |
| RippleMap.MouseUpMap | src/components/rippleMap.tsx:167-176 | releasing ends a drag-move by clearing its three fields and nothing else; without a drag it is a no-op |
| RippleMap.ClickObject | src/components/rippleMap.tsx:178-190 | in select mode the clicked object becomes the selection; text mode changes nothing |
| RippleMap.DoubleClickObject | src/components/rippleMap.tsx:192-208 | in select mode a double-click on a text object switches to text mode and clears the selection, and fails for an unknown id; text mode changes nothing |
| RippleMap.MouseOverObject | src/components/rippleMap.tsx:210-218 | entering an object makes it the hovered one and changes nothing else |
| RippleMap.MouseOutObject | src/components/rippleMap.tsx:220-229 | leaving clears the hover exactly when it is still that object's; otherwise the hover is kept |
| RippleMap.HoverGuard | src/components/rippleMap.tsx:210-229 | entering a sibling before leaving the first keeps the sibling hovered; leaving the hovered object clears it |
| RippleMap.ClickMap | src/components/rippleMap.tsx:231-242 | a background click clears the selection exactly when in select mode with nothing hovered; the selection is otherwise kept |
| RippleMap.ClickMapExamples | src/components/rippleMap.tsx:231-242 | with nothing hovered the selection "a" is cleared; with "a" hovered it is kept |
| RippleMap.DoubleClickMap | src/components/rippleMap.tsx:244-267 | in text mode over empty canvas a 100×100 text object with the default text appears at the clicked scene point under the counter's key, and the counter advances; otherwise nothing changes |
| RippleMap.DoubleClickMapNeverOverwrites | src/components/rippleMap.tsx:244-267 | when every key was issued by the counter, creation keeps every existing object, adds exactly one, and keeps all keys issued |
| RippleMap.Wheel | src/components/rippleMap.tsx:269-278 | a pan draws every scene point twice the wheel delta further up and to the left; the rest of the state is kept |
| RippleMap.WheelAdditive | src/components/rippleMap.tsx:269-278 | two pans equal one pan by the summed deltas |
| RippleMap.ChangeRect | src/components/rippleMap.tsx:280-298 | with no id nothing changes; otherwise the object takes the rect and keeps its kind and data; the other objects and the rest of the state are kept |
| RippleMap.ChangeData | src/components/rippleMap.tsx:300-314 | the update's attributes are written and all other attributes are kept; the rect, kind, other objects and the rest of the state are unchanged; fails for an unknown id |
| RippleMap.ChangeDataExample | src/components/rippleMap.tsx:300-314 | updating `text` on data `{text, extra}` keeps `extra` |
| RippleMap.DragMoveTranslates | src/components/rippleMap.tsx:116-165 | a press then a move shifts the object by the pointer's screen displacement for any viewport, and keeps its size |
| RippleMap.DragMoveExample | src/components/rippleMap.tsx:116-165 | an object at (10,10) 50×50, pressed at scene (15,15) and moved to (40,20), ends at (35,15) 50×50 |
| Selection.CursorPos | src/components/selection.tsx:118-125 | the cursor in scene space is the pointer less the viewport offset |
| Selection.DragStart | src/components/selection.tsx:127-137 | a press on a handle starts a resize from it, capturing the object's rect and the cursor as both initial and current position |
| Selection.ResizedRect | src/components/selection.tsx:163-208 | each edge the handle drags is placed from the initial rect plus the displacement; the extents change to match; fields the handle does not assign come from the current rect; nothing is clamped |
| Selection.UpdateDragState | src/components/selection.tsx:151-211 | a rect is emitted exactly when both positions and the initial rect are known; it is the resized rect for their displacement, or the current rect when no handle is recorded |
| Selection.Drag | src/components/selection.tsx:139-149 | outside a gesture nothing changes and nothing is emitted; inside one the cursor is recorded and the resize for the displacement since the press is emitted |
| Selection.DragStop | src/components/selection.tsx:213-225 | releasing during a gesture forgets all it captured; outside a gesture it is a no-op |
| Selection.DragKeepsConsistent | src/components/selection.tsx:139-149 | from idle or resizing, a move leads to idle or resizing and neither starts nor ends a gesture |
| Selection.DragStopIdles | src/components/selection.tsx:213-225 | from idle or resizing, a release always returns to the initial idle state |
| Selection.OppositeEdgeFixed | src/components/selection.tsx:165-208 | a top-dragging handle keeps the initial bottom edge; a left-dragging one keeps the initial right edge; right, bottom and bottom-right never move x or y |
| Selection.ZeroDeltaRestoresInitial | src/components/selection.tsx:163-208 | with no displacement, the dragged edges and the extents they change equal the initial rect's, while the position a right or bottom handle leaves alone stays the current one; the whole rect is the initial one when current equals initial |
| Selection.CornerCombinesSides | src/components/selection.tsx:166-207 | each corner handle gives the same rect as applying its vertical side handle and then its horizontal one |
| Selection.LatestDeltaWins | src/components/selection.tsx:163-210 | feeding an emitted rect back as the current rect does not change the next result |
| Selection.DragPastOppositeEdgeInverts | src/components/selection.tsx:171-189 | dragging a left or top edge past the opposite edge gives a negative width or height |
| Selection.ResizeExamples | src/components/selection.tsx:184-207 | bottom-right by (20,-30) on 100×100 gives 120×70; top-left by (80,0) on 50×50 gives x 80, width -30 |
| Selection.ReplayFollowsLastCursor | src/components/selection.tsx:139-163 | a run of moves, with each emitted rect stored before the next move, ends at the resize for the last cursor alone and keeps what the press captured |
| Selection.ResizeGesture | src/components/selection.tsx:127-211 | press then moves: the object ends at its initial rect resized by the pointer's total screen displacement, for any viewport |
| Editor.OutlineProps | src/components/rippleMap.tsx:85-104 | the outline is drawn with the viewport and the selected object's rect, and cannot be drawn for a missing object |
| Editor.Unmount | src/components/rippleMap.tsx:85-89 | with nothing selected the outline's gesture state is reset; otherwise it is kept |
| Editor.Step | src/components/rippleMap.tsx:42-104 | one event reaches its handlers in page order: a toolbar click runs `handleClickMap` then `handleChangeMode`; a click or double-click runs the map's capture handler then the object's; a press goes to the object or the handle; a move runs the map's drag-move and then stores the outline's resize; a release ends the map's drag-move, and the outline's resize only when it lands on the outline; then the outline is reset if nothing is selected. No event removes an object or winds back the counter; clicking an object in select mode selects it, and a toolbar or background click in select mode with nothing hovered clears the selection |
| Editor.StartValid | src/components/rippleMap.tsx:24-40 | the initial state satisfies every invariant of reachable states |
| Editor.StepPreservesValid | src/components/rippleMap.tsx:42-104 | in a reachable state no deliverable event fails, and each leads to a reachable state |
| Editor.RunPreservesValid | src/components/rippleMap.tsx:42-104 | any feasible sequence of events from a reachable state runs without failure to a reachable state |
| Editor.ReachableInvariants | src/components/rippleMap.tsx:244-267 | after any feasible run, the selection names an object, there are as many objects as creations, the next key is fresh, and a resize runs only while something is selected |
| Editor.ClickOnObjectSelects | src/components/rippleMap.tsx:49 | because the map's click handler runs first, clicking an object in select mode always selects it, whatever is hovered |
| Editor.BubbleOrderWouldDeselect | src/components/rippleMap.tsx:49 | had the map's handler run after the object's, a click with nothing hovered would leave nothing selected |
| Editor.BackgroundClickDeselects | src/components/rippleMap.tsx:231-242 | a background click in select mode with nothing hovered clears the selection and discards the outline's gesture |
| Editor.ToolbarClickDeselects | src/components/rippleMap.tsx:46-58 | the toolbar sits inside the map, so in select mode with nothing hovered even the current mode's button, a no-op by itself, clears the selection and resets the outline |
| Editor.ModeSwitchResetsOutline | src/components/rippleMap.tsx:106-114 | switching to another mode clears the selection and resets the outline |
| Editor.DoubleClickObjectEntersTextMode | src/components/rippleMap.tsx:192-208 | a double-click on an object in select mode enters text mode with nothing selected, creates nothing, and resets the outline |
| Editor.ResizeAfterMapMove | src/components/selection.tsx:139-148 | with a drag-move and a resize of the selected object both in flight, a move over the outline stores the resize computed from the rect the drag-move just produced |
| Editor.ReleaseOffOutlineKeepsResize | src/components/selection.tsx:47-54 | the outline's mouse-up handler sits on the outline only, so a release on the background leaves the resize in flight, and a press on the selected object then runs a drag-move beside it |
| Editor.HandlePressDuringDragMove | src/components/selection.tsx:127-137 | a press on a handle while a drag-move of the selected object is in flight starts a resize beside it |
| Editor.LaterEventsEndGestures | src/components/rippleMap.tsx:167-176 | with both gestures in flight, a release anywhere ends the drag-move, a release on the outline ends the resize, and a background click with nothing hovered clears the selection and so the resize |
| Editor.OutlineMoveResizes | src/components/rippleMap.tsx:93-102 | during a resize, a move over the outline stores into the selected object the resize of its initial rect for the cursor displacement, keeping its kind and data |

## Left out

- Rendering is not modelled. This covers `render` and the drawing in `renderSelection`, `renderResizeSide` and `renderResizeCorner`, and the whole of `src/components/rippleObject.tsx` and `src/components/rippleObjectText.tsx`. Only the data they emit (`{ text }`, through `Editor.EditData`) is modelled. Hit-testing is an input: each event carries its target.
- `src/App.tsx` is only a mount point.
- `src/common/enums.ts` is not part of this model. `Mode` and `ObjectType` list the values the components use.
- `handleResize` copies the size measured by the browser; `screenWidth` and `screenHeight` are kept but no modelled handler changes them.
- `handleDoubleClickObject` also focuses and selects the object's textarea. That is a DOM call and is not modelled; only the mode switch is.
- `console.log`, `e.preventDefault()` and the `autobind` decorator have no effect on the state.
- React's asynchronous `setState` is not modelled: each handler is one atomic update, and two handlers reached by one event run in sequence. For clicks and double-clicks the order is the capture order. For a mouse-move over the outline, the model applies the map's drag-move first and then the outline's resize, computed from the moved rect. This assumes the map's batched update is applied before the outline's handler resumes after its `await`. The two handlers only interact when a drag-move and a resize are both in flight, which needs a second press while the other gesture is still in flight: a press on an object during a resize (for instance after a release that did not reach the outline), or a press on a handle during a drag-move whose release was lost.
- The object counter `increment` is a `nat`. In the source it is a JavaScript number, so from 2^53 on `increment + 1` no longer changes it. `text-9007199254740992` would then be issued twice, and the second double-click would overwrite the first object. `RippleMap.NextKeyFresh`, `RippleMap.DoubleClickMapNeverOverwrites` and `Editor.ReachableInvariants` hold only for fewer than 2^53 creations.
- A browser double-click also fires two clicks first. Events are given one at a time, so a double-click is its own event.
- Coordinates and wheel deltas are integers. JavaScript numbers are floats.
- RippleMap.MouseMoveMap: when `dragObject` names no object, the source writes an entry holding only `x` and `y`. The model returns `Err` instead, because an object without kind and data cannot be represented. `Editor.StepPreservesValid` shows that no reachable state takes this path.
- RippleMap.ChangeRect: for an id with no object, the source inserts an entry holding only the rect rather than doing nothing. The model returns `Err`. The outline only ever passes the selected id, which `Editor.StepPreservesValid` shows is always present.
- Selection.UpdateDragState: with no captured positions the source throws inside an async function, so nothing is emitted. The model returns `None`, which is the same observable effect.
- Selection.DragStart: a press on a handle during a gesture replaces that gesture, as the source does. Ignoring the second press would be the other safe choice; the model follows the source.
- A pointer-up that never arrives leaves the gesture in flight until a later event ends it. The next release anywhere in the map ends a drag-move. A resize ends at the next release on the outline, or when the selection is cleared. No time-out or pointer capture is modelled.

=== FILE: decimal.dfy ===
/** The decimal text of a non-negative integer, as a template literal
    `${n}` writes it, and its inverse. The map names the objects it creates
    `text-${increment}`; these functions are what make those names distinct. */
module Decimal {

  predicate IsDigit(c: char)
  {
    '0' <= c <= '9'
  }

  predicate IsDigits(s: string)
  {
    forall i :: 0 <= i < |s| ==> IsDigit(s[i])
  }

  function DigitChar(d: nat): (c: char)
    requires d < 10
    ensures IsDigit(c) && c as int - '0' as int == d
  {
    ('0' as int + d) as char
  }

  function DigitValue(c: char): (d: nat)
    requires IsDigit(c)
    ensures d < 10 && DigitChar(d) == c
  {
    c as int - '0' as int
  }

  /** The digits of `n`, most significant first: never empty, and with no
      leading zero except for zero itself. */
  function Show(n: nat): (s: string)
    ensures |s| >= 1 && IsDigits(s)
    ensures s[0] == '0' <==> n == 0
    decreases n
  {
    if n < 10 then [DigitChar(n)] else Show(n / 10) + [DigitChar(n % 10)]
  }

  /** The number a string of digits denotes. */
  function Parse(s: string): nat
    requires IsDigits(s)
    decreases |s|
  {
    if |s| == 0 then 0 else 10 * Parse(s[..|s| - 1]) + DigitValue(s[|s| - 1])
  }

  /** Parse undoes Show. */
  lemma {:induction false} ParseShow(n: nat)
    ensures Parse(Show(n)) == n
    decreases n
  {
    if n >= 10 {
      var s := Show(n);
      assert s[..|s| - 1] == Show(n / 10);
      ParseShow(n / 10);
    }
  }

  /** Distinct numbers have distinct texts. */
  lemma ShowInjective(a: nat, b: nat)
    ensures Show(a) == Show(b) <==> a == b
  {
    if Show(a) == Show(b) {
      ParseShow(a);
      ParseShow(b);
    }
  }
}

=== FILE: editor.dfy ===
/** The map and its selection outline wired together as in
    src/components/rippleMap.tsx: which handlers one pointer event reaches,
    and in which order (the map's click and double-click handlers are
    capture-phase, so they run before the object's; mouse-move and mouse-up
    bubble from the outline to the map). The outline is drawn, and keeps its
    gesture state, only while an object is selected. */
module Editor {
  import opened Interfaces
  import Selection
  import RippleMap

  /** What a pointer event lands on: the map's own surface (the canvas
      background or the toolbar), an object's body, or the selection outline
      (on one of its resize handles, or not). */
  datatype Target = Background | OnObject(id: string) | Outline(handle: Option<Selection.Direction>)

  /** The input the editor reacts to. `ModeButton` is a click on a toolbar
      button, which sits inside the map. */
  datatype Event =
    | ModeButton(mode: Mode)
    | MouseDown(target: Target, client: Point)
    | MouseMove(target: Target, client: Point)
    | MouseUp(target: Target)
    | Click(target: Target)
    | DoubleClick(target: Target, client: Point)
    | MouseOver(target: Target)
    | MouseOut(target: Target)
    | Scroll(deltaX: int, deltaY: int)
    | EditData(id: string, data: RippleMap.ObjectData)

  /** The map's state and the outline's gesture state. */
  datatype Editor = Editor(scene: RippleMap.MapState, selection: Selection.SelectionState)

  const Start := Editor(RippleMap.Initial, Selection.Idle)

  /** The props the outline is drawn with: the viewport and the selected
      object's rect. */
  function OutlineProps(s: RippleMap.MapState, selected: string): (r: Result<Selection.SelectionProps>)
    ensures r.Ok? <==> selected in s.objects
    ensures r.Ok? ==> r.value.screen == s.screen && r.value.rect == RippleMap.RectOf(s.objects[selected])
  {
    if selected !in s.objects then Err(MissingObject(selected))
    else Ok(Selection.SelectionProps(s.screen, RippleMap.RectOf(s.objects[selected])))
  }

  /** A pointer move over the outline: the outline's drag handler, whose
      emitted rect is stored into the selected object. */
  function OutlineMove(e: Editor, client: Point): Result<Editor>
  {
    match e.scene.selectedObject
    case None => Ok(e)
    case Some(selected) =>
      var props :- OutlineProps(e.scene, selected);
      var (selection, emitted) := Selection.Drag(e.selection, props, client);
      var scene :- if emitted.Some? then RippleMap.ChangeRect(e.scene, e.scene.selectedObject, emitted.value)
                   else Ok(e.scene);
      Ok(Editor(scene, selection))
  }

  /** The hover handler an object or the outline is wired to (the outline
      reports the selected object). */
  function HoveredId(s: RippleMap.MapState, t: Target): Option<string>
  {
    match t
    case Background => None
    case OnObject(id) => Some(id)
    case Outline(_) => s.selectedObject
  }

  /** A press: on an object it starts a drag-move, on a handle of the
      outline a resize. */
  function PointerDown(e: Editor, t: Target, client: Point): Result<Editor>
  {
    match t
    case OnObject(id) =>
      var s' :- RippleMap.MouseDownObject(e.scene, id, client);
      Ok(e.(scene := s'))
    case Outline(Some(direction)) =>
      if e.scene.selectedObject.None? then Ok(e)
      else
        var props :- OutlineProps(e.scene, e.scene.selectedObject.value);
        Ok(e.(selection := Selection.DragStart(props, direction, client)))
    case _ => Ok(e)
  }

  /** A move. The outline's handler runs first, but only records the cursor
      before its `await`; the map's drag-move is applied by then, so the
      resize is computed from, and stored over, the rect the map just moved. */
  function PointerMove(e: Editor, t: Target, client: Point): Result<Editor>
  {
    var s1 :- RippleMap.MouseMoveMap(e.scene, client);
    var e1 := e.(scene := s1);
    if t.Outline? then OutlineMove(e1, client) else Ok(e1)
  }

  /** A release: the outline's handler if it is under the pointer, then the
      map's. */
  function PointerUp(e: Editor, t: Target): Editor
  {
    var selection := if t.Outline? && e.scene.selectedObject.Some? then Selection.DragStop(e.selection) else e.selection;
    Editor(RippleMap.MouseUpMap(e.scene), selection)
  }

  /** A click: the map's capture handler, then the object's. */
  function ClickOn(s: RippleMap.MapState, t: Target): RippleMap.MapState
  {
    var s1 := RippleMap.ClickMap(s);
    if t.OnObject? then RippleMap.ClickObject(s1, t.id) else s1
  }

  /** A double-click: the map's capture handler, then the object's. */
  function DoubleClickOn(s: RippleMap.MapState, t: Target, client: Point): Result<RippleMap.MapState>
  {
    var s1 := RippleMap.DoubleClickMap(s, client);
    if t.OnObject? then RippleMap.DoubleClickObject(s1, t.id) else Ok(s1)
  }

  /** The handlers one event reaches, in the order the page runs them. */
  function Dispatch(e: Editor, ev: Event): Result<Editor>
  {
    var s := e.scene;
    match ev
    case ModeButton(mode) => Ok(e.(scene := RippleMap.ChangeMode(RippleMap.ClickMap(s), mode)))
    case MouseDown(t, client) => PointerDown(e, t, client)
    case MouseMove(t, client) => PointerMove(e, t, client)
    case MouseUp(t) => Ok(PointerUp(e, t))
    case Click(t) => Ok(e.(scene := ClickOn(s, t)))
    case DoubleClick(t, client) =>
      var s' :- DoubleClickOn(s, t, client);
      Ok(e.(scene := s'))
    case MouseOver(t) =>
      var id := HoveredId(s, t);
      Ok(if id.Some? then e.(scene := RippleMap.MouseOverObject(s, id.value)) else e)
    case MouseOut(t) =>
      var id := HoveredId(s, t);
      Ok(if id.Some? then e.(scene := RippleMap.MouseOutObject(s, id.value)) else e)
    case Scroll(deltaX, deltaY) => Ok(e.(scene := RippleMap.Wheel(s, deltaX, deltaY)))
    case EditData(id, data) =>
      var s' :- RippleMap.ChangeData(s, id, data);
      Ok(e.(scene := s'))
  }

  /** The outline is unmounted, losing its gesture state, once nothing is
      selected. */
  function Unmount(e: Editor): (r: Editor)
    ensures r.scene == e.scene
    ensures e.scene.selectedObject.None? ==> r.selection == Selection.Idle
    ensures e.scene.selectedObject.Some? ==> r == e
  {
    if e.scene.selectedObject.None? then e.(selection := Selection.Idle) else e
  }

  /** One event, followed by the re-render. No event removes an object or
      winds the counter back; the outline keeps gesture state only while an
      object is selected; a click on an object in select mode selects it, and
      a click on the toolbar or background in select mode with nothing
      hovered clears the selection. */
  function Step(e: Editor, ev: Event): (r: Result<Editor>)
    ensures r.Ok? ==> e.scene.objects.Keys <= r.value.scene.objects.Keys
    ensures r.Ok? ==> e.scene.increment <= r.value.scene.increment
    ensures r.Ok? && r.value.scene.selectedObject.None? ==> r.value.selection == Selection.Idle
    ensures ev.Click? && ev.target.OnObject? && e.scene.mode == SelectMode ==>
      r.Ok? && r.value.scene.selectedObject == Some(ev.target.id)
    ensures (ev.ModeButton? || ev == Click(Background)) && e.scene.mode == SelectMode && e.scene.mouseOverObject.None? ==>
      r.Ok? && r.value.scene.selectedObject.None? && r.value.selection == Selection.Idle
  {
    var e' :- Dispatch(e, ev);
    Ok(Unmount(e'))
  }

  /** An id the state refers to names an object. */
  predicate Tracked(s: RippleMap.MapState, id: Option<string>)
  {
    id.None? || id.value in s.objects
  }

  /** The ids the map holds name objects, and the drag-move fields are set
      together. */
  predicate IdsTracked(s: RippleMap.MapState)
  {
    && Tracked(s, s.selectedObject)
    && Tracked(s, s.mouseOverObject)
    && Tracked(s, s.dragObject)
    && s.dragInitialPos.Some? == s.dragObject.Some?
    && s.dragInitialCursor.Some? == s.dragObject.Some?
  }

  /** The objects are exactly those the counter has named so far. */
  predicate KeysIssued(s: RippleMap.MapState)
  {
    s.objects.Keys == RippleMap.TextKeys(s.increment)
  }

  /** Every object's data holds its text. */
  predicate TextData(s: RippleMap.MapState)
  {
    forall k :: k in s.objects ==> "text" in s.objects[k].data
  }

  /** The outline is idle or resizing, and idle whenever it is not drawn. */
  predicate OutlineConsistent(e: Editor)
  {
    && Selection.Consistent(e.selection)
    && (e.scene.selectedObject.None? ==> e.selection == Selection.Idle)
  }

  /** A consistency invariant that every state reachable from Start
      satisfies. */
  predicate Valid(e: Editor)
  {
    IdsTracked(e.scene) && KeysIssued(e.scene) && TextData(e.scene) && OutlineConsistent(e)
  }

  /** An event the page can deliver: an object it lands on is one that is
      drawn, and edited text belongs to a drawn object. */
  predicate Deliverable(e: Editor, ev: Event)
  {
    match ev
    case MouseDown(t, _) => Tracked(e.scene, HoveredId(e.scene, t))
    case MouseMove(t, _) => Tracked(e.scene, HoveredId(e.scene, t))
    case MouseUp(t) => Tracked(e.scene, HoveredId(e.scene, t))
    case Click(t) => Tracked(e.scene, HoveredId(e.scene, t))
    case DoubleClick(t, _) => Tracked(e.scene, HoveredId(e.scene, t))
    case MouseOver(t) => Tracked(e.scene, HoveredId(e.scene, t))
    case MouseOut(t) => Tracked(e.scene, HoveredId(e.scene, t))
    case EditData(id, _) => id in e.scene.objects
    case _ => true
  }

  lemma StartValid()
    ensures Valid(Start)
  {
    assert RippleMap.TextKeys(0) == {};
  }

  /** A state with the same objects, counter and outline as a reachable one,
      whose ids still name objects, is reachable too. */
  lemma SameObjectsValid(e: Editor, e': Editor)
    requires Valid(e)
    requires e'.scene.objects == e.scene.objects && e'.scene.increment == e.scene.increment
    requires IdsTracked(e'.scene) && OutlineConsistent(e')
    ensures Valid(e')
  {
  }

  lemma ModeButtonValid(e: Editor, mode: Mode)
    requires Valid(e)
    ensures Step(e, ModeButton(mode)).Ok? && Valid(Step(e, ModeButton(mode)).value)
  {
    var e' := Unmount(e.(scene := RippleMap.ChangeMode(RippleMap.ClickMap(e.scene), mode)));
    assert Step(e, ModeButton(mode)) == Ok(e');
    SameObjectsValid(e, e');
  }

  lemma PointerDownValid(e: Editor, t: Target, client: Point)
    requires Valid(e) && Deliverable(e, MouseDown(t, client))
    ensures Step(e, MouseDown(t, client)).Ok? && Valid(Step(e, MouseDown(t, client)).value)
  {
    var s := e.scene;
    assert PointerDown(e, t, client).Ok?;
    var e' := Unmount(PointerDown(e, t, client).value);
    assert Step(e, MouseDown(t, client)) == Ok(e');
    SameObjectsValid(e, e');
  }

  lemma OutlineMoveValid(e: Editor, client: Point)
    requires Valid(e)
    ensures OutlineMove(e, client).Ok?
    ensures Valid(OutlineMove(e, client).value)
  {
    if e.scene.selectedObject.Some? {
      var props := OutlineProps(e.scene, e.scene.selectedObject.value).value;
      Selection.DragKeepsConsistent(e.selection, props, client);
      var e' := OutlineMove(e, client).value;
      assert e'.scene.objects.Keys == e.scene.objects.Keys;
      assert KeysIssued(e'.scene);
      assert TextData(e'.scene);
    }
  }

  lemma MapMoveValid(e: Editor, client: Point)
    requires Valid(e)
    ensures RippleMap.MouseMoveMap(e.scene, client).Ok?
    ensures Valid(e.(scene := RippleMap.MouseMoveMap(e.scene, client).value))
  {
    var s' := RippleMap.MouseMoveMap(e.scene, client).value;
    assert s'.objects.Keys == e.scene.objects.Keys;
    assert KeysIssued(s');
    assert TextData(s');
  }

  lemma PointerMoveValid(e: Editor, t: Target, client: Point)
    requires Valid(e) && Deliverable(e, MouseMove(t, client))
    ensures Step(e, MouseMove(t, client)).Ok? && Valid(Step(e, MouseMove(t, client)).value)
  {
    MapMoveValid(e, client);
    var e1 := e.(scene := RippleMap.MouseMoveMap(e.scene, client).value);
    var e2 := e1;
    if t.Outline? {
      OutlineMoveValid(e1, client);
      e2 := OutlineMove(e1, client).value;
    }
    assert PointerMove(e, t, client) == Ok(e2);
    assert Step(e, MouseMove(t, client)) == Ok(Unmount(e2));
  }

  lemma PointerUpValid(e: Editor, t: Target)
    requires Valid(e)
    ensures Step(e, MouseUp(t)).Ok? && Valid(Step(e, MouseUp(t)).value)
  {
    var s := e.scene;
    var e' := Unmount(PointerUp(e, t));
    assert Step(e, MouseUp(t)) == Ok(e');
    if t.Outline? && s.selectedObject.Some? {
      Selection.DragStopIdles(e.selection);
    }
    SameObjectsValid(e, e');
  }

  lemma ClickValid(e: Editor, t: Target)
    requires Valid(e) && Deliverable(e, Click(t))
    ensures Step(e, Click(t)).Ok? && Valid(Step(e, Click(t)).value)
  {
    var e' := Unmount(e.(scene := ClickOn(e.scene, t)));
    assert Step(e, Click(t)) == Ok(e');
    SameObjectsValid(e, e');
  }

  lemma CreationValid(e: Editor, client: Point)
    requires Valid(e)
    ensures e.scene.objects.Keys <= RippleMap.DoubleClickMap(e.scene, client).objects.Keys
    ensures Valid(e.(scene := RippleMap.DoubleClickMap(e.scene, client)))
  {
    var s := e.scene;
    if RippleMap.Creates(s) {
      RippleMap.NextKeyFresh(s.increment);
      RippleMap.TextKeysStep(s.increment);
      var s' := RippleMap.DoubleClickMap(s, client);
      assert KeysIssued(s');
      assert TextData(s');
    }
  }

  lemma DoubleClickValid(e: Editor, t: Target, client: Point)
    requires Valid(e) && Deliverable(e, DoubleClick(t, client))
    ensures Step(e, DoubleClick(t, client)).Ok? && Valid(Step(e, DoubleClick(t, client)).value)
  {
    var s1 := RippleMap.DoubleClickMap(e.scene, client);
    CreationValid(e, client);
    var e1 := e.(scene := s1);
    if t.OnObject? {
      assert t.id in s1.objects;
      var s2 := RippleMap.DoubleClickObject(s1, t.id).value;
      assert DoubleClickOn(e.scene, t, client) == Ok(s2);
      assert Step(e, DoubleClick(t, client)) == Ok(Unmount(e.(scene := s2)));
      SameObjectsValid(e1, Unmount(e.(scene := s2)));
    } else {
      assert Step(e, DoubleClick(t, client)) == Ok(Unmount(e1));
    }
  }

  lemma HoverValid(e: Editor, t: Target, entering: bool)
    requires Valid(e) && Tracked(e.scene, HoveredId(e.scene, t))
    ensures var ev := if entering then MouseOver(t) else MouseOut(t);
      Step(e, ev).Ok? && Valid(Step(e, ev).value)
  {
    var id := HoveredId(e.scene, t);
    var e' := if id.None? then e
              else if entering then e.(scene := RippleMap.MouseOverObject(e.scene, id.value))
              else e.(scene := RippleMap.MouseOutObject(e.scene, id.value));
    var ev := if entering then MouseOver(t) else MouseOut(t);
    assert Step(e, ev) == Ok(Unmount(e'));
    SameObjectsValid(e, Unmount(e'));
  }

  lemma ScrollValid(e: Editor, deltaX: int, deltaY: int)
    requires Valid(e)
    ensures Step(e, Scroll(deltaX, deltaY)).Ok? && Valid(Step(e, Scroll(deltaX, deltaY)).value)
  {
    var e' := Unmount(e.(scene := RippleMap.Wheel(e.scene, deltaX, deltaY)));
    assert Step(e, Scroll(deltaX, deltaY)) == Ok(e');
    SameObjectsValid(e, e');
  }

  lemma EditDataValid(e: Editor, id: string, data: RippleMap.ObjectData)
    requires Valid(e) && id in e.scene.objects
    ensures Step(e, EditData(id, data)).Ok? && Valid(Step(e, EditData(id, data)).value)
  {
    var s' := RippleMap.ChangeData(e.scene, id, data).value;
    assert s'.objects.Keys == e.scene.objects.Keys;
    assert KeysIssued(s');
    assert TextData(s');
    assert Step(e, EditData(id, data)) == Ok(Unmount(e.(scene := s')));
  }

  /** No deliverable event fails in a reachable state, and every such event
      leads to a reachable state again. */
  lemma StepPreservesValid(e: Editor, ev: Event)
    requires Valid(e) && Deliverable(e, ev)
    ensures Step(e, ev).Ok?
    ensures Valid(Step(e, ev).value)
  {
    match ev
    case ModeButton(mode) => ModeButtonValid(e, mode);
    case MouseDown(t, client) => PointerDownValid(e, t, client);
    case MouseMove(t, client) => PointerMoveValid(e, t, client);
    case MouseUp(t) => PointerUpValid(e, t);
    case Click(t) => ClickValid(e, t);
    case DoubleClick(t, client) => DoubleClickValid(e, t, client);
    case MouseOver(t) => HoverValid(e, t, true);
    case MouseOut(t) => HoverValid(e, t, false);
    case Scroll(deltaX, deltaY) => ScrollValid(e, deltaX, deltaY);
    case EditData(id, data) => EditDataValid(e, id, data);
  }

  /** Runs a sequence of events, stopping at the first failure. */
  function Run(e: Editor, events: seq<Event>): Result<Editor>
    decreases |events|
  {
    if |events| == 0 then Ok(e)
    else
      var e' :- Step(e, events[0]);
      Run(e', events[1..])
  }

  /** Each event of the sequence is deliverable when it happens. */
  predicate Feasible(e: Editor, events: seq<Event>)
    decreases |events|
  {
    |events| == 0 ||
    (Deliverable(e, events[0]) && (Step(e, events[0]).Ok? ==> Feasible(Step(e, events[0]).value, events[1..])))
  }

  /** From a reachable state, any feasible sequence of events runs without
      failure to a reachable state. */
  lemma {:induction false} RunPreservesValid(e: Editor, events: seq<Event>)
    requires Valid(e) && Feasible(e, events)
    ensures Run(e, events).Ok?
    ensures Valid(Run(e, events).value)
    decreases |events|
  {
    if |events| > 0 {
      StepPreservesValid(e, events[0]);
      RunPreservesValid(Step(e, events[0]).value, events[1..]);
    }
  }

  /** In every reachable state the selection names an object, the objects are
      exactly the keys issued so far (one per creation, all distinct), and a
      resize gesture is only in flight while an object is selected. */
  lemma ReachableInvariants(events: seq<Event>)
    requires Feasible(Start, events)
    ensures Run(Start, events).Ok?
    ensures var e := Run(Start, events).value;
      && Tracked(e.scene, e.scene.selectedObject)
      && |e.scene.objects| == e.scene.increment
      && RippleMap.TextKey(e.scene.increment) !in e.scene.objects
      && (e.selection.isDragging ==> e.scene.selectedObject.Some?)
  {
    StartValid();
    RunPreservesValid(Start, events);
    var e := Run(Start, events).value;
    RippleMap.TextKeysCount(e.scene.increment);
    RippleMap.NextKeyFresh(e.scene.increment);
  }

  /** A click on an object in select mode selects it whatever is hovered: the
      map's capture handler runs first, so its hover-guarded clear cannot undo
      the object's selection. */
  lemma ClickOnObjectSelects(e: Editor, id: string)
    requires e.scene.mode == SelectMode
    ensures Step(e, Click(OnObject(id))).Ok?
    ensures Step(e, Click(OnObject(id))).value.scene.selectedObject == Some(id)
    ensures Step(e, Click(OnObject(id))).value.selection == e.selection
  {
  }

  /** Had the map's handler run after the object's (bubble order), a click on
      an object with no hover recorded would end with nothing selected. */
  lemma BubbleOrderWouldDeselect(s: RippleMap.MapState, id: string)
    requires s.mode == SelectMode && s.mouseOverObject.None?
    ensures RippleMap.ClickObject(RippleMap.ClickMap(s), id).selectedObject == Some(id)
    ensures RippleMap.ClickMap(RippleMap.ClickObject(s, id)).selectedObject.None?
  {
  }

  /** A click on the background in select mode with nothing hovered clears
      the selection and discards any resize gesture with the outline. */
  lemma BackgroundClickDeselects(e: Editor)
    requires e.scene.mode == SelectMode && e.scene.mouseOverObject.None?
    ensures Step(e, Click(Background)).Ok?
    ensures Step(e, Click(Background)).value.scene.selectedObject.None?
    ensures Step(e, Click(Background)).value.selection == Selection.Idle
  {
  }

  /** A click on the toolbar is a click inside the map, so the map's capture
      handler runs before the button's: in select mode with nothing hovered,
      even the button of the current mode, which itself does nothing, clears
      the selection and unmounts the outline. */
  lemma ToolbarClickDeselects(e: Editor)
    requires e.scene.mode == SelectMode && e.scene.mouseOverObject.None?
    ensures Step(e, ModeButton(SelectMode)).Ok?
    ensures var e' := Step(e, ModeButton(SelectMode)).value;
      && e'.scene.mode == SelectMode
      && e'.scene.selectedObject.None?
      && e'.selection == Selection.Idle
      && e'.scene.objects == e.scene.objects
    ensures RippleMap.ChangeMode(e.scene, SelectMode) == e.scene
  {
  }

  /** Switching mode clears the selection and so unmounts the outline. */
  lemma ModeSwitchResetsOutline(e: Editor, mode: Mode)
    requires mode != e.scene.mode
    ensures Step(e, ModeButton(mode)).Ok?
    ensures Step(e, ModeButton(mode)).value.scene.mode == mode
    ensures Step(e, ModeButton(mode)).value.scene.selectedObject.None?
    ensures Step(e, ModeButton(mode)).value.selection == Selection.Idle
  {
  }

  /** A double-click on a text object in select mode enters text mode with
      nothing selected and creates nothing (the map's own handler acts only in
      text mode). */
  lemma DoubleClickObjectEntersTextMode(e: Editor, id: string, client: Point)
    requires e.scene.mode == SelectMode && id in e.scene.objects
    ensures Step(e, DoubleClick(OnObject(id), client)).Ok?
    ensures var e' := Step(e, DoubleClick(OnObject(id), client)).value;
      && e'.scene.mode == TextMode
      && e'.scene.selectedObject.None?
      && e'.scene.objects == e.scene.objects
      && e'.selection == Selection.Idle
  {
  }

  /** When a drag-move and a resize of the selected object are both in
      flight, a move over the outline first moves the object, then stores over
      it the resize computed from the moved rect: the fields the handle
      assigns come from the resize, the others from the drag-move. */
  lemma ResizeAfterMapMove(e: Editor, handle: Option<Selection.Direction>, client: Point)
    requires Valid(e) && Selection.Resizing(e.selection) && RippleMap.Dragging(e.scene)
    requires e.scene.dragObject == e.scene.selectedObject
    ensures e.scene.selectedObject.Some?
    ensures Step(e, MouseMove(Outline(handle), client)).Ok?
    ensures var id := e.scene.selectedObject.value;
      var moved := RippleMap.MouseMoveMap(e.scene, client).value;
      var e' := Step(e, MouseMove(Outline(handle), client)).value;
      var st := e.selection;
      && id in moved.objects && id in e'.scene.objects
      && RippleMap.RectOf(e'.scene.objects[id])
         == Selection.ResizedRect(st.resizeDirection.value, st.initialRect.value,
                                  RippleMap.RectOf(moved.objects[id]),
                                  Delta(st.initialPos.value, ScreenToScene(client, e.scene.screen)))
  {
    MapMoveValid(e, client);
  }

  /** A release off the outline does not reach its mouse-up handler, so the
      resize stays in flight; a press on the selected object then starts a
      drag-move beside it. */
  lemma ReleaseOffOutlineKeepsResize(e: Editor, id: string, direction: Selection.Direction, p: Point, q: Point)
    requires Valid(e) && e.scene.mode == SelectMode && e.scene.selectedObject == Some(id)
    ensures Step(e, MouseDown(Outline(Some(direction)), p)).Ok?
    ensures var e1 := Step(e, MouseDown(Outline(Some(direction)), p)).value;
      && Step(e1, MouseUp(Background)).Ok?
      && var e2 := Step(e1, MouseUp(Background)).value;
      && Step(e2, MouseDown(OnObject(id), q)).Ok?
      && var e3 := Step(e2, MouseDown(OnObject(id), q)).value;
      && Selection.Resizing(e3.selection)
      && RippleMap.Dragging(e3.scene)
      && e3.scene.dragObject == e3.scene.selectedObject
  {
  }

  /** A press on a handle while a drag-move of the selected object is in
      flight (its release lost) starts a resize beside it. */
  lemma HandlePressDuringDragMove(e: Editor, id: string, direction: Selection.Direction, p: Point, q: Point)
    requires Valid(e) && e.scene.mode == SelectMode && e.scene.selectedObject == Some(id)
    requires e.selection == Selection.Idle
    ensures Step(e, MouseDown(OnObject(id), p)).Ok?
    ensures var e1 := Step(e, MouseDown(OnObject(id), p)).value;
      && Step(e1, MouseDown(Outline(Some(direction)), q)).Ok?
      && var e2 := Step(e1, MouseDown(Outline(Some(direction)), q)).value;
      && Selection.Resizing(e2.selection)
      && RippleMap.Dragging(e2.scene)
      && e2.scene.dragObject == e2.scene.selectedObject
  {
  }

  /** Lost releases do not leave gestures stuck: with both in flight, the
      next release anywhere ends the drag-move, a release on the outline ends
      the resize too, and a background click that clears the selection drops
      the resize with the outline. */
  lemma LaterEventsEndGestures(e: Editor, t: Target)
    requires Valid(e) && Selection.Resizing(e.selection) && RippleMap.Dragging(e.scene)
    ensures Step(e, MouseUp(t)).Ok?
    ensures !RippleMap.Dragging(Step(e, MouseUp(t)).value.scene)
    ensures t.Outline? ==> Step(e, MouseUp(t)).value.selection == Selection.Idle
    ensures !t.Outline? ==> Step(e, MouseUp(t)).value.selection == e.selection
    ensures e.scene.mouseOverObject.None? ==>
      Step(e, Click(Background)).Ok? && Step(e, Click(Background)).value.selection == Selection.Idle
  {
  }

  /** During a resize gesture, a move over the outline stores into the
      selected object the resize of its initial rect by the cursor's
      displacement since the press, keeping its kind and data. */
  lemma OutlineMoveResizes(e: Editor, handle: Option<Selection.Direction>, client: Point)
    requires Valid(e) && Selection.Resizing(e.selection) && !RippleMap.Dragging(e.scene)
    ensures e.scene.selectedObject.Some?
    ensures Step(e, MouseMove(Outline(handle), client)).Ok?
    ensures var id := e.scene.selectedObject.value;
      var e' := Step(e, MouseMove(Outline(handle), client)).value;
      var st := e.selection;
      && id in e'.scene.objects
      && RippleMap.RectOf(e'.scene.objects[id])
         == Selection.ResizedRect(st.resizeDirection.value, st.initialRect.value,
                                  RippleMap.RectOf(e.scene.objects[id]),
                                  Delta(st.initialPos.value, ScreenToScene(client, e.scene.screen)))
      && e'.scene.objects[id].kind == e.scene.objects[id].kind
      && e'.scene.objects[id].data == e.scene.objects[id].data
  {
  }
}

=== FILE: interfaces.dfy ===
/** The value types shared by the map and its selection outline (the shapes
    of src/common/interfaces.ts and of the enums both components import),
    the nullable and failing results the handlers produce, and the
    conversion between screen space and scene space. */
module Interfaces {

  /** A TypeScript `T | null`. */
  datatype Option<+T> = None | Some(value: T)

  /** Why a handler could not update the state: it read a field of
      `objects[id]` for an id that keys no object. */
  datatype Fault = MissingObject(id: string)

  /** The outcome of a handler that may fail. A failed handler leaves the
      component state as it was. */
  datatype Result<+T> = Ok(value: T) | Err(fault: Fault) {
    predicate IsFailure()
    {
      Err?
    }

    function PropagateFailure<U>(): Result<U>
      requires Err?
    {
      Err(fault)
    }

    function Extract(): T
      requires Ok?
    {
      value
    }
  }

  /** A position `{ x, y }`, in screen space (a pointer's client
      coordinates) or in scene space. */
  datatype Point = Point(x: int, y: int)

  /** IRect: the left edge `x`, the top edge `y`, and the extents; the right
      edge is `x + width` and the bottom edge `y + height`. Nothing keeps the
      extents positive. */
  datatype Rect = Rect(x: int, y: int, width: int, height: int) {
    function Right(): int { x + width }
    function Bottom(): int { y + height }
  }

  /** IScreen: the pan offset of the viewport and the size of the surface. */
  datatype Screen = Screen(offsetX: int, offsetY: int, screenWidth: int, screenHeight: int)

  /** RippleMapMode: how pointer input is read. */
  datatype Mode = SelectMode | TextMode

  /** RippleObjectType: the kinds of scene object (text is the only one). */
  datatype ObjectType = TextObject

  /** The displacement that carries `from` onto `to`. */
  function Delta(from: Point, to: Point): (d: Point)
    ensures Point(from.x + d.x, from.y + d.y) == to
  {
    Point(to.x - from.x, to.y - from.y)
  }

  /** Where a scene point is drawn: every object and the selection outline
      are translated by the viewport offset. */
  function SceneToScreen(p: Point, screen: Screen): Point
  {
    Point(p.x + screen.offsetX, p.y + screen.offsetY)
  }

  /** The scene point under a pointer at `client`: the pointer position less
      the viewport offset. It undoes SceneToScreen. */
  function ScreenToScene(client: Point, screen: Screen): (p: Point)
    ensures SceneToScreen(p, screen) == client
  {
    Point(client.x - screen.offsetX, client.y - screen.offsetY)
  }

  /** SceneToScreen undoes ScreenToScene as well, so the two are inverse
      bijections for every viewport. */
  lemma SceneScreenRoundTrip(p: Point, screen: Screen)
    ensures ScreenToScene(SceneToScreen(p, screen), screen) == p
  {
  }

  /** A pointer displacement measured in scene space equals the one measured
      in screen space, whatever the (unchanging) viewport offset. */
  lemma DisplacementIgnoresOffset(a: Point, b: Point, screen: Screen)
    ensures Delta(ScreenToScene(a, screen), ScreenToScene(b, screen)) == Delta(a, b)
  {
  }
}

=== FILE: ripplemap.dfy ===
/** The state of the scene editor's map component (src/components/rippleMap.tsx)
    and its event handlers, each a pure step from the old state to the new.
    A handler that would read a missing object yields Err and no new state. */
module RippleMap {
  import opened Interfaces
  import Decimal

  /** IRippleObjectData: the object's attributes, merged field by field
      (a text object has the single attribute "text"). */
  type ObjectData = map<string, string>

  /** IRippleObjectProps: an object's rect, flattened, its kind and data. */
  datatype RippleObject = RippleObject(x: int, y: int, width: int, height: int, kind: ObjectType, data: ObjectData)

  function RectOf(o: RippleObject): Rect
  {
    Rect(o.x, o.y, o.width, o.height)
  }

  /** IRippleMapState: the viewport (IScreen), the objects by key, the
      selected and hovered keys, the mode, the counter that names new objects,
      and the drag-move gesture. */
  datatype MapState = MapState(
    screen: Screen,
    objects: map<string, RippleObject>,
    selectedObject: Option<string>,
    mouseOverObject: Option<string>,
    mode: Mode,
    increment: nat,
    dragObject: Option<string>,
    dragInitialPos: Option<Point>,
    dragInitialCursor: Option<Point>)

  const Initial := MapState(Screen(0, 0, 0, 0), map[], None, None, SelectMode, 0, None, None, None)

  /** Size and content of an object created by a double-click. */
  const NewObjectSize: int := 100
  const DefaultText: string := "Enter text here"

  /** The key of the n-th created object, `text-${n}`. */
  function TextKey(n: nat): (k: string)
    ensures |k| > 5 && k[..5] == "text-" && Decimal.IsDigits(k[5..])
  {
    "text-" + Decimal.Show(n)
  }

  /** The counter a key was created from: undoes TextKey. */
  function KeyIndex(k: string): nat
    requires |k| >= 5 && Decimal.IsDigits(k[5..])
  {
    Decimal.Parse(k[5..])
  }

  lemma TextKeyRoundTrip(n: nat)
    ensures KeyIndex(TextKey(n)) == n
  {
    assert TextKey(n)[5..] == Decimal.Show(n);
    Decimal.ParseShow(n);
  }

  /** Distinct counters give distinct keys. */
  lemma TextKeyInjective(a: nat, b: nat)
    ensures TextKey(a) == TextKey(b) <==> a == b
  {
    if TextKey(a) == TextKey(b) {
      TextKeyRoundTrip(a);
      TextKeyRoundTrip(b);
    }
  }

  /** The keys issued once the counter has reached `n`. */
  function TextKeys(n: nat): set<string>
  {
    set j: nat | j < n :: TextKey(j)
  }

  /** The counter's next key has not been issued yet. */
  lemma NextKeyFresh(n: nat)
    ensures TextKey(n) !in TextKeys(n)
  {
    if TextKey(n) in TextKeys(n) {
      var j: nat :| j < n && TextKey(j) == TextKey(n);
      TextKeyInjective(j, n);
    }
  }

  lemma TextKeysStep(n: nat)
    ensures TextKeys(n + 1) == TextKeys(n) + {TextKey(n)}
  {
    forall k | k in TextKeys(n + 1)
      ensures k in TextKeys(n) + {TextKey(n)}
    {
      var j: nat :| j < n + 1 && TextKey(j) == k;
      if j < n {
        assert k in TextKeys(n);
      }
    }
  }

  /** Issued keys are all distinct: `n` of them after `n` creations. */
  lemma {:induction false} TextKeysCount(n: nat)
    ensures |TextKeys(n)| == n
  {
    if n > 0 {
      TextKeysCount(n - 1);
      TextKeysStep(n - 1);
      NextKeyFresh(n - 1);
    }
  }

  /** handleChangeMode(mode): switching to another mode clears the selection;
      choosing the current mode changes nothing. */
  function ChangeMode(s: MapState, mode: Mode): (r: MapState)
    ensures r.mode == mode
    ensures mode == s.mode ==> r == s
    ensures mode != s.mode ==> r.selectedObject.None?
    ensures r.(mode := s.mode, selectedObject := s.selectedObject) == s
  {
    if mode == s.mode then s else s.(mode := mode, selectedObject := None)
  }

  /** handleMouseDownObject(id): in select mode, starts a drag-move of the
      object, capturing its position and the cursor in scene space. */
  function MouseDownObject(s: MapState, id: string, client: Point): (r: Result<MapState>)
    ensures s.mode == TextMode ==> r == Ok(s)
    ensures s.mode == SelectMode ==> (r.Ok? <==> id in s.objects)
    ensures s.mode == SelectMode && r.Ok? ==>
      && r.value.dragObject == Some(id)
      && r.value.dragInitialPos == Some(Point(s.objects[id].x, s.objects[id].y))
      && r.value.dragInitialCursor.Some?
      && SceneToScreen(r.value.dragInitialCursor.value, s.screen) == client
      && r.value.(dragObject := s.dragObject, dragInitialPos := s.dragInitialPos,
                  dragInitialCursor := s.dragInitialCursor) == s
  {
    match s.mode
    case SelectMode =>
      if id !in s.objects then
        Err(MissingObject(id))
      else
        var o := s.objects[id];
        Ok(s.(dragObject := Some(id),
              dragInitialCursor := Some(ScreenToScene(client, s.screen)),
              dragInitialPos := Some(Point(o.x, o.y))))
    case TextMode => Ok(s)
  }

  /** A drag-move is in flight: select mode with every captured field set. */
  predicate Dragging(s: MapState)
  {
    && s.mode == SelectMode
    && s.dragObject.Some?
    && s.dragInitialPos.Some?
    && s.dragInitialCursor.Some?
  }

  /** handleMouseMoveMap: during a drag-move, places the dragged object at its
      captured position plus the cursor's displacement since the press; its
      extents, kind and data, every other object and the rest of the state are
      kept. Outside a drag-move nothing changes. */
  function MouseMoveMap(s: MapState, client: Point): (r: Result<MapState>)
    ensures !Dragging(s) ==> r == Ok(s)
    ensures Dragging(s) ==> (r.Ok? <==> s.dragObject.value in s.objects)
    ensures Dragging(s) && r.Ok? ==>
      var id := s.dragObject.value;
      var d := Delta(s.dragInitialCursor.value, ScreenToScene(client, s.screen));
      && r.value.objects.Keys == s.objects.Keys
      && r.value.objects[id].x == s.dragInitialPos.value.x + d.x
      && r.value.objects[id].y == s.dragInitialPos.value.y + d.y
      && r.value.objects[id].(x := s.objects[id].x, y := s.objects[id].y) == s.objects[id]
      && (forall k :: k in s.objects && k != id ==> r.value.objects[k] == s.objects[k])
      && r.value.(objects := s.objects) == s
  {
    if !Dragging(s) then
      Ok(s)
    else
      var id := s.dragObject.value;
      if id !in s.objects then
        Err(MissingObject(id))
      else
        var pos := s.dragInitialPos.value;
        var initial := s.dragInitialCursor.value;
        var current := ScreenToScene(client, s.screen);
        var moved := s.objects[id].(x := pos.x + (current.x - initial.x), y := pos.y + (current.y - initial.y));
        Ok(s.(objects := s.objects[id := moved]))
  }

  /** handleMouseUpMap: ends a drag-move, forgetting what it captured. */
  function MouseUpMap(s: MapState): (r: MapState)
    ensures s.dragObject.None? ==> r == s
    ensures s.dragObject.Some? ==> r.dragObject.None? && r.dragInitialPos.None? && r.dragInitialCursor.None?
    ensures r.(dragObject := s.dragObject, dragInitialPos := s.dragInitialPos,
               dragInitialCursor := s.dragInitialCursor) == s
  {
    if s.dragObject.Some? then s.(dragObject := None, dragInitialPos := None, dragInitialCursor := None) else s
  }

  /** handleClickObject(id): in select mode, selects the object. */
  function ClickObject(s: MapState, id: string): (r: MapState)
    ensures s.mode == SelectMode ==> r.selectedObject == Some(id)
    ensures s.mode == TextMode ==> r == s
    ensures r.(selectedObject := s.selectedObject) == s
  {
    match s.mode
    case SelectMode => s.(selectedObject := Some(id))
    case TextMode => s
  }

  /** handleDoubleClickObject(id): in select mode, a double-click on a text
      object switches to text mode (clearing the selection). */
  function DoubleClickObject(s: MapState, id: string): (r: Result<MapState>)
    ensures s.mode == TextMode ==> r == Ok(s)
    ensures s.mode == SelectMode ==> (r.Ok? <==> id in s.objects)
    ensures s.mode == SelectMode && r.Ok? ==> r.value == ChangeMode(s, TextMode)
    ensures r.Ok? ==> r.value.mode == TextMode
  {
    match s.mode
    case SelectMode =>
      if id !in s.objects then
        Err(MissingObject(id))
      else
        (match s.objects[id].kind
         case TextObject => Ok(ChangeMode(s, TextMode)))
    case TextMode => Ok(s)
  }

  /** handleMouseOverObject(id): the pointer entered the object. */
  function MouseOverObject(s: MapState, id: string): (r: MapState)
    ensures r.mouseOverObject == Some(id)
    ensures r.(mouseOverObject := s.mouseOverObject) == s
  {
    s.(mouseOverObject := Some(id))
  }

  /** handleMouseOutObject(id): the pointer left the object; the hover is
      cleared only if it is still this object's. */
  function MouseOutObject(s: MapState, id: string): (r: MapState)
    ensures r.mouseOverObject.None? <==> s.mouseOverObject.None? || s.mouseOverObject == Some(id)
    ensures r.mouseOverObject.Some? ==> r.mouseOverObject == s.mouseOverObject
    ensures r.(mouseOverObject := s.mouseOverObject) == s
  {
    if s.mouseOverObject == Some(id) then s.(mouseOverObject := None) else s
  }

  /** handleClickMap: in select mode, a click clears the selection unless the
      pointer is over an object. */
  function ClickMap(s: MapState): (r: MapState)
    ensures r.selectedObject.None? <==>
      s.selectedObject.None? || (s.mode == SelectMode && s.mouseOverObject.None?)
    ensures r.selectedObject.Some? ==> r.selectedObject == s.selectedObject
    ensures r.(selectedObject := s.selectedObject) == s
  {
    match s.mode
    case SelectMode => if s.mouseOverObject.None? then s.(selectedObject := None) else s
    case TextMode => s
  }

  /** The map creates objects: text mode with no object under the pointer. */
  predicate Creates(s: MapState)
  {
    s.mode == TextMode && s.mouseOverObject.None?
  }

  /** handleDoubleClickMap: in text mode over empty canvas, adds a text object
      of the default size and text at the clicked scene point, keyed by the
      counter, and advances the counter. Otherwise nothing changes. */
  function DoubleClickMap(s: MapState, client: Point): (r: MapState)
    ensures !Creates(s) ==> r == s
    ensures Creates(s) ==>
      var key := TextKey(s.increment);
      && r.increment == s.increment + 1
      && r.objects.Keys == s.objects.Keys + {key}
      && key in r.objects
      && SceneToScreen(Point(r.objects[key].x, r.objects[key].y), s.screen) == client
      && r.objects[key].width == NewObjectSize && r.objects[key].height == NewObjectSize
      && r.objects[key].kind == TextObject
      && r.objects[key].data == map["text" := DefaultText]
      && (forall k :: k in s.objects && k != key ==> r.objects[k] == s.objects[k])
      && r.(increment := s.increment, objects := s.objects) == s
  {
    match s.mode
    case TextMode =>
      if s.mouseOverObject.Some? then
        s
      else
        var p := ScreenToScene(client, s.screen);
        var created := RippleObject(p.x, p.y, NewObjectSize, NewObjectSize, TextObject, map["text" := DefaultText]);
        s.(increment := s.increment + 1, objects := s.objects[TextKey(s.increment) := created])
    case SelectMode => s
  }

  /** handleWheel: pans the viewport against the wheel, at twice its delta:
      every scene point is drawn 2*delta further up and to the left. */
  function Wheel(s: MapState, deltaX: int, deltaY: int): (r: MapState)
    ensures forall p: Point {:trigger SceneToScreen(p, r.screen)} ::
      SceneToScreen(p, r.screen) == Point(SceneToScreen(p, s.screen).x - 2 * deltaX,
                                          SceneToScreen(p, s.screen).y - 2 * deltaY)
    ensures r.screen.screenWidth == s.screen.screenWidth && r.screen.screenHeight == s.screen.screenHeight
    ensures r.(screen := s.screen) == s
  {
    s.(screen := s.screen.(offsetX := s.screen.offsetX - deltaX * 2, offsetY := s.screen.offsetY - deltaY * 2))
  }

  /** handleChangeRect(id): stores a rect into the object, keeping its kind
      and data, every other object and the rest of the state. With no id it
      does nothing. */
  function ChangeRect(s: MapState, id: Option<string>, rect: Rect): (r: Result<MapState>)
    ensures id.None? ==> r == Ok(s)
    ensures id.Some? ==> (r.Ok? <==> id.value in s.objects)
    ensures id.Some? && r.Ok? ==>
      var k := id.value;
      && r.value.objects.Keys == s.objects.Keys
      && RectOf(r.value.objects[k]) == rect
      && r.value.objects[k].kind == s.objects[k].kind
      && r.value.objects[k].data == s.objects[k].data
      && (forall k' :: k' in s.objects && k' != k ==> r.value.objects[k'] == s.objects[k'])
      && r.value.(objects := s.objects) == s
  {
    match id
    case None => Ok(s)
    case Some(k) =>
      if k !in s.objects then
        Err(MissingObject(k))
      else
        var o := s.objects[k];
        Ok(s.(objects := s.objects[k := o.(x := rect.x, y := rect.y, width := rect.width, height := rect.height)]))
  }

  /** handleChangeData(id): merges the given attributes into the object's
      data; attributes the update does not name are kept. */
  function ChangeData(s: MapState, id: string, data: ObjectData): (r: Result<MapState>)
    ensures r.Ok? <==> id in s.objects
    ensures r.Ok? ==> r.value.objects.Keys == s.objects.Keys
    ensures r.Ok? ==>
      var o := s.objects[id];
      var o' := r.value.objects[id];
      && o'.data.Keys == o.data.Keys + data.Keys
      && (forall f :: f in data ==> o'.data[f] == data[f])
      && (forall f :: f in o.data && f !in data ==> o'.data[f] == o.data[f])
      && o'.(data := o.data) == o
      && (forall k :: k in s.objects && k != id ==> r.value.objects[k] == s.objects[k])
      && r.value.(objects := s.objects) == s
  {
    if id !in s.objects then
      Err(MissingObject(id))
    else
      var o := s.objects[id];
      Ok(s.(objects := s.objects[id := o.(data := o.data + data)]))
  }

  /** Choosing a mode twice is the same as choosing it once. */
  lemma ChangeModeIdempotent(s: MapState, mode: Mode)
    ensures ChangeMode(ChangeMode(s, mode), mode) == ChangeMode(s, mode)
  {
  }

  /** A press on an object followed by a move (viewport unchanged) translates
      the object by exactly the pointer's screen displacement, whatever the
      viewport offset. */
  lemma DragMoveTranslates(s: MapState, id: string, press: Point, move: Point)
    requires s.mode == SelectMode && id in s.objects
    ensures MouseDownObject(s, id, press).Ok?
    ensures var s1 := MouseDownObject(s, id, press).value;
      && MouseMoveMap(s1, move).Ok?
      && var o := MouseMoveMap(s1, move).value.objects[id];
      && o.x == s.objects[id].x + (move.x - press.x)
      && o.y == s.objects[id].y + (move.y - press.y)
      && o.width == s.objects[id].width && o.height == s.objects[id].height
  {
  }

  /** For example: an object at (10, 10), 50 by 50, pressed at scene
      point (15, 15) and dragged to scene point (40, 20), lands at (35, 15),
      still 50 by 50, with its kind and data. */
  lemma DragMoveExample(s: MapState, id: string, o: RippleObject)
    requires s.mode == SelectMode && id in s.objects && s.objects[id] == o
    requires RectOf(o) == Rect(10, 10, 50, 50)
    ensures var s1 := MouseDownObject(s, id, SceneToScreen(Point(15, 15), s.screen)).value;
      MouseMoveMap(s1, SceneToScreen(Point(40, 20), s.screen)).value.objects[id] == o.(x := 35, y := 15)
  {
    DragMoveTranslates(s, id, SceneToScreen(Point(15, 15), s.screen), SceneToScreen(Point(40, 20), s.screen));
  }

  /** Two pans compose into one pan by the summed deltas. */
  lemma WheelAdditive(s: MapState, dx1: int, dy1: int, dx2: int, dy2: int)
    ensures Wheel(Wheel(s, dx1, dy1), dx2, dy2) == Wheel(s, dx1 + dx2, dy1 + dy2)
  {
  }

  /** Hover tracking between siblings: entering b before leaving a keeps b
      hovered; leaving the hovered object clears it. */
  lemma HoverGuard(s: MapState, a: string, b: string)
    requires a != b
    ensures MouseOutObject(MouseOverObject(MouseOverObject(s, a), b), a).mouseOverObject == Some(b)
    ensures MouseOutObject(MouseOverObject(s, a), a).mouseOverObject.None?
  {
  }

  /** For example: with nothing hovered the selection is
      cleared; with an object hovered it is kept. */
  lemma ClickMapExamples(s: MapState)
    requires s.mode == SelectMode && s.selectedObject == Some("a")
    ensures ClickMap(s.(mouseOverObject := None)).selectedObject.None?
    ensures ClickMap(s.(mouseOverObject := Some("a"))).selectedObject == Some("a")
  {
  }

  /** For example: updating "text" on data holding "text" and "extra"
      keeps "extra". */
  lemma ChangeDataExample()
    ensures var o := RippleObject(0, 0, 10, 10, TextObject, map["text" := "x", "extra" := "y"]);
      var s := Initial.(objects := map["a" := o]);
      ChangeData(s, "a", map["text" := "z"]).value.objects["a"].data == map["text" := "z", "extra" := "y"]
  {
  }

  /** Every key in the map was issued by the counter: the next key is fresh,
      so a creation never overwrites an object. */
  lemma DoubleClickMapNeverOverwrites(s: MapState, client: Point)
    requires Creates(s) && s.objects.Keys <= TextKeys(s.increment)
    ensures TextKey(s.increment) !in s.objects
    ensures var r := DoubleClickMap(s, client);
      && (forall k :: k in s.objects ==> k in r.objects && r.objects[k] == s.objects[k])
      && |r.objects| == |s.objects| + 1
      && r.objects.Keys <= TextKeys(r.increment)
  {
    NextKeyFresh(s.increment);
    TextKeysStep(s.increment);
  }
}

=== FILE: selection.dfy ===
/** The selection outline of src/components/selection.tsx: eight resize
    handles around the selected object, a gesture state that is idle or
    resizing from one handle, and the pure computation of the rect each
    pointer move emits. */
module Selection {
  import opened Interfaces

  /** ResizeDirection: the handle a resize gesture started from. */
  datatype Direction = Top | Left | Right | Bottom | TopLeft | TopRight | BottomLeft | BottomRight

  /** The edges each handle drags: a side handle drags its own edge, a
      corner handle the two edges that meet there. */
  predicate MovesTop(d: Direction)
  {
    d == Top || d == TopLeft || d == TopRight
  }

  predicate MovesBottom(d: Direction)
  {
    d == Bottom || d == BottomLeft || d == BottomRight
  }

  predicate MovesLeft(d: Direction)
  {
    d == Left || d == TopLeft || d == BottomLeft
  }

  predicate MovesRight(d: Direction)
  {
    d == Right || d == TopRight || d == BottomRight
  }

  /** ISelectionState. */
  datatype SelectionState = SelectionState(
    isDragging: bool,
    resizeDirection: Option<Direction>,
    initialRect: Option<Rect>,
    initialPos: Option<Point>,
    currentPos: Option<Point>)

  /** The state the component starts in, and returns to on mouse-up. */
  const Idle := SelectionState(false, None, None, None, None)

  /** A gesture in flight: every field captured at its start is present. */
  predicate Resizing(st: SelectionState)
  {
    && st.isDragging
    && st.resizeDirection.Some?
    && st.initialRect.Some?
    && st.initialPos.Some?
    && st.currentPos.Some?
  }

  /** The props the map passes down: its viewport and the selected object's
      current rect. */
  datatype SelectionProps = SelectionProps(screen: Screen, rect: Rect)

  /** getCursorPos: the pointer position in scene space. */
  function CursorPos(props: SelectionProps, client: Point): (p: Point)
    ensures SceneToScreen(p, props.screen) == client
  {
    ScreenToScene(client, props.screen)
  }

  /** handleDragStart(direction): begins a resize from the given handle,
      capturing the object's rect and the cursor (as both the initial and the
      current position). Any gesture already in flight is replaced. */
  function DragStart(props: SelectionProps, direction: Direction, client: Point): (st: SelectionState)
    ensures Resizing(st)
    ensures st.resizeDirection == Some(direction)
    ensures st.initialRect == Some(props.rect)
    ensures st.initialPos == st.currentPos
    ensures SceneToScreen(st.initialPos.value, props.screen) == client
  {
    var cursor := CursorPos(props, client);
    SelectionState(true, Some(direction), Some(props.rect), Some(cursor), Some(cursor))
  }

  /** The rect a resize from `direction` produces when the cursor has moved by
      `delta` since the gesture began. Each edge the handle drags is placed
      relative to `initial`; the fields the handle does not assign are taken
      from `current`, the rect the object has now. Nothing is clamped. */
  function ResizedRect(direction: Direction, initial: Rect, current: Rect, delta: Point): (r: Rect)
    ensures MovesTop(direction) ==> r.y == initial.y + delta.y && r.height == initial.height - delta.y
    ensures MovesBottom(direction) ==> r.y == current.y && r.height == initial.height + delta.y
    ensures !MovesTop(direction) && !MovesBottom(direction) ==> r.y == current.y && r.height == current.height
    ensures MovesLeft(direction) ==> r.x == initial.x + delta.x && r.width == initial.width - delta.x
    ensures MovesRight(direction) ==> r.x == current.x && r.width == initial.width + delta.x
    ensures !MovesLeft(direction) && !MovesRight(direction) ==> r.x == current.x && r.width == current.width
  {
    var c := current;
    match direction
    case Top => c.(y := initial.y + delta.y, height := initial.height - delta.y)
    case Left => c.(x := initial.x + delta.x, width := initial.width - delta.x)
    case Right => c.(width := initial.width + delta.x)
    case Bottom => c.(height := initial.height + delta.y)
    case TopLeft =>
      Rect(initial.x + delta.x, initial.y + delta.y, initial.width - delta.x, initial.height - delta.y)
    case TopRight => c.(y := initial.y + delta.y, width := initial.width + delta.x, height := initial.height - delta.y)
    case BottomLeft => c.(x := initial.x + delta.x, width := initial.width - delta.x, height := initial.height + delta.y)
    case BottomRight => c.(width := initial.width + delta.x, height := initial.height + delta.y)
  }

  /** updateDragState: the rect to hand to the map's change-rect callback, if
      any. Nothing is emitted while a captured position or the initial rect is
      missing; with no direction recorded the current rect is emitted as is. */
  function UpdateDragState(st: SelectionState, props: SelectionProps): (emitted: Option<Rect>)
    ensures emitted.Some? <==> st.initialPos.Some? && st.currentPos.Some? && st.initialRect.Some?
    ensures emitted.Some? && st.resizeDirection.None? ==> emitted.value == props.rect
    ensures emitted.Some? && st.resizeDirection.Some? ==>
      emitted.value == ResizedRect(st.resizeDirection.value, st.initialRect.value, props.rect,
                                   Delta(st.initialPos.value, st.currentPos.value))
  {
    if st.initialPos.None? || st.currentPos.None? || st.initialRect.None? then
      None
    else
      var delta := Delta(st.initialPos.value, st.currentPos.value);
      match st.resizeDirection
      case None => Some(props.rect)
      case Some(direction) => Some(ResizedRect(direction, st.initialRect.value, props.rect, delta))
  }

  /** handleDrag: on a pointer move during a gesture, records the cursor and
      emits the resized rect; outside a gesture it does nothing. */
  function Drag(st: SelectionState, props: SelectionProps, client: Point): (r: (SelectionState, Option<Rect>))
    ensures !st.isDragging ==> r == (st, None)
    ensures st.isDragging ==> r.0.currentPos == Some(CursorPos(props, client))
    ensures st.isDragging ==> r.0.(currentPos := st.currentPos) == st
    ensures Resizing(st) ==>
      r.1 == Some(ResizedRect(st.resizeDirection.value, st.initialRect.value, props.rect,
                              Delta(st.initialPos.value, CursorPos(props, client))))
  {
    if !st.isDragging then
      (st, None)
    else
      var st' := st.(currentPos := Some(CursorPos(props, client)));
      (st', UpdateDragState(st', props))
  }

  /** handleDragStop: ends a gesture, forgetting everything it captured. */
  function DragStop(st: SelectionState): (r: SelectionState)
    ensures !r.isDragging
    ensures st.isDragging ==> r.resizeDirection.None? && r.initialRect.None? && r.initialPos.None? && r.currentPos.None?
    ensures !st.isDragging ==> r == st
  {
    if !st.isDragging then st else Idle
  }

  /** The component's states reachable from Idle: idle, or resizing. */
  predicate Consistent(st: SelectionState)
  {
    st == Idle || Resizing(st)
  }

  /** A move keeps the state idle or resizing, and starts or ends nothing. */
  lemma DragKeepsConsistent(st: SelectionState, props: SelectionProps, client: Point)
    requires Consistent(st)
    ensures Consistent(Drag(st, props, client).0)
    ensures Drag(st, props, client).0.isDragging == st.isDragging
  {
  }

  /** From idle or resizing, a release always returns to idle. */
  lemma DragStopIdles(st: SelectionState)
    requires Consistent(st)
    ensures DragStop(st) == Idle
  {
  }

  /** The edge facing the handle never moves: a handle that drags the top
      edge keeps the bottom edge of the initial rect, one that drags the left
      edge keeps its right edge, and the right and bottom handles never change
      the position. */
  lemma OppositeEdgeFixed(direction: Direction, initial: Rect, current: Rect, delta: Point)
    ensures MovesTop(direction) ==> ResizedRect(direction, initial, current, delta).Bottom() == initial.Bottom()
    ensures MovesLeft(direction) ==> ResizedRect(direction, initial, current, delta).Right() == initial.Right()
    ensures direction in {Right, Bottom, BottomRight} ==>
      ResizedRect(direction, initial, current, delta).x == current.x &&
      ResizedRect(direction, initial, current, delta).y == current.y
  {
  }

  /** With no displacement, the fields the handle assigns are those of the
      initial rect, and the others those of the current rect. */
  lemma ZeroDeltaRestoresInitial(direction: Direction, initial: Rect, current: Rect)
    ensures ResizedRect(direction, initial, initial, Point(0, 0)) == initial
    ensures var r := ResizedRect(direction, initial, current, Point(0, 0));
      && (MovesTop(direction) ==> r.y == initial.y && r.height == initial.height)
      && (MovesBottom(direction) ==> r.y == current.y && r.height == initial.height)
      && (MovesLeft(direction) ==> r.x == initial.x && r.width == initial.width)
      && (MovesRight(direction) ==> r.x == current.x && r.width == initial.width)
  {
  }

  /** A corner handle does what its two side handles do one after the other. */
  lemma CornerCombinesSides(initial: Rect, current: Rect, delta: Point)
    ensures ResizedRect(TopLeft, initial, current, delta)
         == ResizedRect(Left, initial, ResizedRect(Top, initial, current, delta), delta)
    ensures ResizedRect(TopRight, initial, current, delta)
         == ResizedRect(Right, initial, ResizedRect(Top, initial, current, delta), delta)
    ensures ResizedRect(BottomLeft, initial, current, delta)
         == ResizedRect(Left, initial, ResizedRect(Bottom, initial, current, delta), delta)
    ensures ResizedRect(BottomRight, initial, current, delta)
         == ResizedRect(Right, initial, ResizedRect(Bottom, initial, current, delta), delta)
  {
  }

  /** Feeding a resize's own output back as the current rect (as happens
      once the map stores it) changes nothing: the result depends only on the
      latest displacement. */
  lemma LatestDeltaWins(direction: Direction, initial: Rect, current: Rect, d1: Point, d2: Point)
    ensures ResizedRect(direction, initial, ResizedRect(direction, initial, current, d1), d2)
         == ResizedRect(direction, initial, current, d2)
  {
  }

  /** Extents are not clamped: dragging a left-moving handle past the right
      edge gives a negative width, and an upward-moving one past the bottom
      edge a negative height. */
  lemma DragPastOppositeEdgeInverts(direction: Direction, initial: Rect, current: Rect, delta: Point)
    ensures MovesLeft(direction) && delta.x > initial.width ==> ResizedRect(direction, initial, current, delta).width < 0
    ensures MovesTop(direction) && delta.y > initial.height ==> ResizedRect(direction, initial, current, delta).height < 0
  {
  }

  /** For example: the bottom-right corner of a 100 by 100 rect dragged by
      (20, -30) gives 120 by 70, and the top-left corner of a 50 by 50 rect
      dragged by (80, 0), past the right edge, gives x 80 and width -30. */
  lemma ResizeExamples()
    ensures var r := Rect(0, 0, 100, 100); ResizedRect(BottomRight, r, r, Point(20, -30)) == Rect(0, 0, 120, 70)
    ensures var r := Rect(0, 0, 50, 50); ResizedRect(TopLeft, r, r, Point(80, 0)) == Rect(80, 0, -30, 50)
  {
  }

  /** A run of pointer moves during a gesture, with each emitted rect stored
      as the object's rect before the next move arrives (the map's
      change-rect handler writes it and the outline is re-rendered with it).
      Yields the final gesture state and the object's final rect. */
  function Replay(st: SelectionState, screen: Screen, rect: Rect, clients: seq<Point>): (r: (SelectionState, Rect))
    decreases |clients|
  {
    if |clients| == 0 then
      (st, rect)
    else
      var step := Drag(st, SelectionProps(screen, rect), clients[0]);
      var rect' := if step.1.Some? then step.1.value else rect;
      Replay(step.0, screen, rect', clients[1..])
  }

  /** Inside a gesture, a run of moves leaves the object at the resize for
      the last cursor position alone, and the gesture captured at its start
      untouched. */
  lemma {:induction false} ReplayFollowsLastCursor(st: SelectionState, screen: Screen, rect: Rect, clients: seq<Point>)
    requires Resizing(st) && |clients| > 0
    ensures var r := Replay(st, screen, rect, clients);
      && r.1 == ResizedRect(st.resizeDirection.value, st.initialRect.value, rect,
                            Delta(st.initialPos.value, ScreenToScene(clients[|clients| - 1], screen)))
      && r.0 == st.(currentPos := Some(ScreenToScene(clients[|clients| - 1], screen)))
    decreases |clients|
  {
    var step := Drag(st, SelectionProps(screen, rect), clients[0]);
    if |clients| > 1 {
      var rect' := step.1.value;
      ReplayFollowsLastCursor(step.0, screen, rect', clients[1..]);
      assert clients[1..][|clients[1..]| - 1] == clients[|clients| - 1];
      LatestDeltaWins(st.resizeDirection.value, st.initialRect.value, rect,
                      Delta(st.initialPos.value, ScreenToScene(clients[0], screen)),
                      Delta(st.initialPos.value, ScreenToScene(clients[|clients| - 1], screen)));
    }
  }

  /** A whole resize gesture: press on a handle at `start`, move through
      `moves`. The object ends at the initial rect resized by the pointer's
      total screen displacement; the viewport offset cancels out. */
  lemma ResizeGesture(screen: Screen, rect: Rect, direction: Direction, start: Point, moves: seq<Point>)
    requires |moves| > 0
    ensures Replay(DragStart(SelectionProps(screen, rect), direction, start), screen, rect, moves).1
         == ResizedRect(direction, rect, rect, Delta(start, moves[|moves| - 1]))
  {
    ReplayFollowsLastCursor(DragStart(SelectionProps(screen, rect), direction, start), screen, rect, moves);
    DisplacementIgnoresOffset(start, moves[|moves| - 1], screen);
  }
}
